=== FILE: README.md ===
# Request decisions of a role-gated file-sharing backend, in Dafny

This project models the decision layer of a FastAPI file-sharing backend. Users
sign up, verify their e-mail and log in. An uploader-role user (`OPS_USER`) can
upload Office documents to object storage. A downloader-role user (`CLIENT_USER`)
can list the files, obtain a download capability token, and redeem that token for
a time-limited presigned URL. The model covers:

- the status each handler returns or raises, and in which order the checks run (the framework's validation of the returned value against the route's response model is left out, see below);
- the records each request leaves in the store.

Every handler is a pure function. It returns a `Reply` (a payload, or the status
code of the HTTP error the source raises), together with the store it leaves
behind where it writes.

- **Store.** The store is `Models.Db`: a map of users and a map of file records,
  keyed by primary key, plus the next value of each id sequence. A rollback keeps
  the old store.
- **Store invariant.** `Models.Valid` covers:
  - ids come from their sequences;
  - e-mail addresses are unique;
  - rows fit their `String(255)` / `String(10)` columns;
  - a user holds a verification token exactly when it holds its expiry;
  - every file row has an allowed type and was uploaded by a stored uploader-role user.

  Signup, e-mail verification and upload preserve it.
- **Time** is integer seconds. The clock reading is a `now` parameter.
- **Collaborators are parameters.** These are the password hasher, the JWT
  decoder, the mail sender, object storage, URL presigning, and the capability
  token issuer and validator. Each appears as a function or outcome value.
- **Modules.** They follow the source files:
  - `Models`: `app/models.py`;
  - `Schemas`: `app/schemas.py`;
  - `Security`: `app/security.py`;
  - `Auth`: `app/routers/auth.py`;
  - `FileOps`: `app/routers/file_operations.py`.

  `Text` holds the string rules: ASCII classes, `os.path.splitext`, and the decimal
  text of an id. `Constants` holds the token lifetimes and allowed extensions of `app/constants.py`, the 15-minute default lifetime of `app/security.py:67`, the 300-second URL lifetime of `app/routers/file_operations.py:220`, and the key prefix of `app/services/s3_service.py:49`. `Scenarios`
  chains the handlers end to end.

Behaviour of the code worth knowing up front:

- The download handler checks ownership by comparing the token's user with the caller and the found row's id with the token's file id. When the token carries an integer file id, the second comparison never fails for a row found by that id. A file id carried as decimal text still finds the row, because the database coerces it, but the comparison then fails and the answer is 403.
- A role violation when requesting a download token answers 500, not 403 (see Findings).
- Capability-token expiry would be checked by the token validator, which is not part of this model.

## Model

| member | source | states |
|---|---|---|
| Models.ParseRole | app/models.py:6-8 | a role text names exactly one of the two roles, `ops_user` or `client_user`; any other text names none |
| Models.RoleValueRoundTrip | app/schemas.py:26 | a role's text value is accepted as that role |
| Models.FindUser | app/routers/auth.py:95-97 | a filtered `.first()` query finds a user that matches, none with a smaller id matches, and it finds none exactly when no stored user matches |
| Models.FindByEmailUnique | app/models.py:14 | in a valid store the address lookup finds the one user holding that address |
| Models.EmptyDb | app/models.py:10-31 | a fresh database with no rows satisfies the store invariant |
| Schemas.CheckPassword | app/schemas.py:25-43 | accepted iff length ≥ 8, some digit and some upper-case letter; the length error comes first, then the digit error, then the upper-case error; an accepted password is returned unchanged |
| Schemas.ScanPassword | app/schemas.py:39-43 | the validator's two short-circuiting character scans, digit first, agree with the password rule on every input |
| Schemas.PasswordExamples | app/schemas.py:39-43 | "ABCDEFG1" passes (no lower case or symbol needed); "abcdefgh" reports the missing digit; "abcdefg1" reports the missing upper case |
| Schemas.ParseUserCreate | app/schemas.py:15-43 | a signup body validates iff its address passes the address field type, its password passes and its role is a role value; the validated body carries the normalised address; every failing field is reported |
| Schemas.ParseLoginRequest | app/schemas.py:7-9 | a login body validates iff its address passes the same field type; it carries the normalised address and the password text unchanged, with no password rule |
| Text.SplitExt | app/routers/file_operations.py:41 | root and extension concatenate back to the name; the extension is non-empty exactly when the last path component has a dot with a non-dot character before it, and then it is a dot followed by no dot or slash |
| Text.DottedNameSplits | app/routers/file_operations.py:41 | that condition on the name is the same as the last dot lying after the last separator with a non-dot character between them |
| Text.ParseIdToString | app/security.py:129-136 | the decimal text login writes into `sub` coerces back to the same integer id |
| Security.CreateAccessToken | app/security.py:63-69 | the claims are the caller's claims plus `exp` (a caller `exp` is overwritten); `exp` is now plus a non-zero lifetime, or now plus 15 minutes when the lifetime is absent or zero |
| Security.DecodeToken | app/security.py:99-105 | every decoding failure is a 401; success yields the decoded claims |
| Security.SubjectId | app/security.py:129-136 | a subject names an id exactly when `sub` is present and is a text of decimal digits, and it names that number; a missing, null or non-text subject names none |
| Security.GetCurrentUser | app/security.py:125-143 | every failure is a 401; success iff a bearer token decodes to a subject naming a stored user, and that user is returned, with its id equal to the subject |
| Security.SessionRoundTrip | app/security.py:127-141 | claims issued at login for a stored user resolve back to exactly that user |
| Security.NoSubjectNoUser | app/security.py:129-134 | decoded claims without a textual `sub` never authenticate |
| Auth.CreateUser | app/routers/auth.py:31-74 | a taken address gives 400 and leaves the store unchanged; a failed verification mail or a refused commit gives 500 and leaves the store unchanged; otherwise exactly one user is added with a fresh id, the given address and role, the password's digest, active, unverified, and a token expiring in 30 minutes; the store stays valid |
| Auth.Signup | app/routers/auth.py:16-17 | a body failing validation (a malformed address, a weak password, an unknown role) gives 422 with the store unchanged; a success passed the password rule, stores the normalised address, and adds exactly the new id |
| Auth.SignupRefusesNormalisedDuplicate | app/routers/auth.py:31-37 | a signup whose address normalises to a stored address is refused with 400, however the typed text differs |
| Auth.VerifyEmail | app/routers/auth.py:95-120 | a token no user holds gives 400; success iff the first holder's expiry is not before now (expiry is strict); success verifies that one user and clears its token and expiry, changing nothing else; failures leave the store unchanged |
| Auth.VerifyEmailFailsWith400 | app/routers/auth.py:99-110 | in a valid store every verification failure is a 400 |
| Auth.VerificationTokenSingleUse | app/routers/auth.py:113-117 | a token that verified its only holder is refused with 400 when presented again |
| Auth.Login | app/routers/auth.py:140-164 | an unknown address and a wrong password both give the same 401; the password is checked before the verified flag, so 403 needs a correct password and an unverified user; success issues claims whose `sub` is the user's id and whose `exp` is 30 minutes ahead |
| Auth.LoginIgnoresActiveFlag | app/routers/auth.py:140-158 | changing a user's active flag changes no login outcome |
| Auth.LoginEndpoint | app/routers/auth.py:122-140 | a malformed address gives 422; otherwise the handler runs on the normalised address |
| Auth.LoginFindsNormalisedAddress | app/routers/auth.py:140-158 | any spelling that normalises to a verified user's stored address logs in with that user's password |
| Auth.LoginHasNoPasswordRule | app/schemas.py:7-9 | a login password is not subject to the signup rule: one the rule refuses still logs in a verified user whose digest it matches |
| FileOps.ValidateFileType | app/routers/file_operations.py:31-46 | accepted iff the lower-cased `splitext` extension is one of `.pptx`, `.docx`, `.xlsx`; otherwise 400 |
| FileOps.ValidateFileTypeAcceptsAllowedSuffix | app/routers/file_operations.py:41-42 | the type check accepts exactly the names ending, in any case, with an allowed extension after a non-dot character of the last path component |
| FileOps.AllowedShape | app/models.py:30 | every allowed extension is a dot and four lower-case letters, so it fits the 10-character `file_type` column |
| FileOps.ValidateFileTypeExamples | app/routers/file_operations.py:41-46 | "Report.XLSX" passes as ".xlsx"; "a.xlsx.exe", ".xlsx" and "notes" are refused |
| FileOps.Upload | app/routers/file_operations.py:71-99 | a non-uploader gets 403 before the type check; a refused type gets 400; a storage failure or a refused commit gives 500 and adds no record; success adds one record with the given filename, the caller as uploader, the lower-cased allowed extension as type, and the prefixed storage key |
| FileOps.UploadPreservesValid | app/routers/file_operations.py:80-92 | an upload by a stored user keeps the store valid |
| FileOps.UploadRejectionPrecedesStorage | app/routers/file_operations.py:71-80 | a 403 or 400 upload does not depend on the storage or database outcome |
| FileOps.LongFilenameUploadFails | app/models.py:27-28 | a filename longer than 238 characters never uploads, because its storage key overflows the 255-character column |
| FileOps.SameNameSameKey | app/services/s3_service.py:49 | two uploads of the same filename get the same storage key |
| FileOps.ListFiles | app/routers/file_operations.py:118-122 | a non-downloader gets 403; a downloader gets every stored record and nothing else, whoever uploaded it |
| FileOps.RequestDownloadToken | app/routers/file_operations.py:173-189 | every failure, the role rejection included, is a 500; success iff the caller is a downloader and the issuer returns a token for the file and the caller's id |
| FileOps.RequestDownloadTokenIntended | app/routers/file_operations.py:173-189 | with HTTP errors re-raised, a non-downloader gets 403; success as in the handler as written |
| FileOps.DownloadTokenRoleErrorSwallowed | app/routers/file_operations.py:174-176 | an uploader-role caller gets 500 from the handler as written and 403 from the corrected one |
| FileOps.QueryFileId | app/routers/file_operations.py:208 | the file query selects by an integer id as given and by a digit text coerced to its number when that fits the 32-bit column; a digit text beyond the column's range, or a text that is not digits, makes it raise; null selects nothing |
| FileOps.DownloadFile | app/routers/file_operations.py:200-232 | a validator error passes its status through, and any other exception gives 500; a file id the query cannot coerce gives 500; then a missing file gives 404; then a token for another user, or a file id that is not an integer, gives 403; success needs an integer file id naming a stored row and the caller's integer id, and returns the URL presigned for the file's key with a 300-second expiry |
| FileOps.DownloadOwnershipIsCallerCheck | app/routers/file_operations.py:208-215 | in a valid store, for an integer file id naming a stored file, success depends only on the token's user being the caller and on presigning |
| FileOps.TextualFileIdRefused | app/routers/file_operations.py:208-232 | a file id carried as the decimal text of a stored id within the column's range finds the row, yet the download is refused with 403; beyond that range the query raises and the answer is 500 |
| FileOps.DownloadIgnoresRole | app/routers/file_operations.py:191-221 | the caller's role changes no download outcome |
| FileOps.UploadEndpoint | app/routers/file_operations.py:49-54 | an authentication failure is a 401 with the store unchanged; an uploaded record names the authenticated uploader-role user; the store stays valid |
| FileOps.ListEndpoint | app/routers/file_operations.py:102-106 | an authentication failure is a 401; a listing is served only to an authenticated downloader |
| FileOps.DownloadTokenEndpoint | app/routers/file_operations.py:165-169 | an authentication failure is a 401; any other failure is a 500; a token is the issuer's token for the authenticated caller |
| FileOps.DownloadEndpoint | app/routers/file_operations.py:191-196 | an authentication failure is a 401; a URL is served only when the token was issued to the authenticated caller |
| Scenarios.SignupVerifyLoginAuthenticates | app/routers/auth.py:47-158 | signup with a fresh address and an acceptable password, then verification within 30 minutes, then login all succeed; the issued claims resolve to the new, verified account |
| Scenarios.UploaderStoresSpreadsheet | app/routers/file_operations.py:71-88 | an uploader's "report.xlsx" is stored with type ".xlsx" and key "fast_api/uploads/report.xlsx"; a downloader's attempt gets 403 |
| Scenarios.CapabilityRedeemedOnlyByHolder | app/routers/file_operations.py:178-221 | a downloader's token for a stored file redeems to that file's URL; any other user presenting it gets 403 |
| Scenarios.CapabilityForMissingFile | app/routers/file_operations.py:178-211 | a token is issued for a file id with no stored file, and redeeming it gives 404 |

## Left out

- Password hashing (bcrypt) is the opaque `Security.Hasher`. Its verify-after-hash property is `Security.Sound`, taken as a hypothesis wherever a proof needs it.
- JWT signing and decoding (HS256) are not modelled. A token is modelled by its claims, and decoding is a caller-supplied `string -> Option<Claims>`. Signature and `exp` checks belong to the library.
- Capability-token encryption, encoding and expiry are not modelled. `generate_download_token` and `validate_download_token` are called by the download routes but are not defined in `app/services/s3_service.py`. They are parameters: an issuer `(file id, user id) -> Option<token>` and a validator `token -> Result<Grant, Raised>`.
- FileOps.Grant: the payload's ids are modelled as integers, texts or null. JSON floats, which Python compares numerically with the integer ids, are not modelled. Nor are booleans: a boolean file id makes the query compare `integer = boolean`, which PostgreSQL refuses, so the query raises and the source answers 500.
- Security.SubjectId: the decoder parameter stands for python-jose, which refuses a token whose `sub` is not a string. The model therefore treats a non-text subject as naming no user. A digit text with a sign or surrounding spaces, which PostgreSQL would coerce to an id, also names no user here.
- Object storage (boto3) is reduced to an upload outcome (`stored`), the key formula, and a presign function. Storage failures are outcomes, not modelled errors.
- SMTP mail delivery is reduced to the `mailSent` outcome.
- The random verification token (`secrets.token_urlsafe`) is a parameter.
- `datetime.utcnow()` is the integer `now`. The `created_at` server-default timestamps are not modelled.
- Python's Unicode `isdigit`, `isupper` and `lower` are modelled on ASCII only.
- Schemas.EmailRule: the `EmailStr` field type is a parameter, from typed text to the normalised address or to nothing for a malformed address. Which texts the e-mail validation library accepts, and exactly how it normalises them, is not modelled.
- An upload without a filename is not modelled; the filename is always a string.
- `MAX_FILE_SIZE` is declared but never enforced, so no size check is modelled.
- Response validation is not modelled. An `Ok` reply is the handler's return value. The framework then checks that value against the route's `response_model`, and a value that fails the check is answered with 500. Three routes are affected:
- FileOps.Upload: the response dict is built before the insert (app/routers/file_operations.py:89), so its `id` is null, which `FileResponse.id: int` refuses. A committed upload is therefore answered with 500, although its object and row are stored.
- FileOps.DownloadFile: the returned dict has no `message`, which `DownloadResponse` requires, so an issued presigned URL is answered with 500.
- FileOps.RequestDownloadToken: `DownloadTokenResponse` is imported (app/routers/file_operations.py:10) from `app/schemas.py`, which does not define it. The router module as written therefore fails to import, and none of the file routes is served. Each FileOps handler is modelled as if that import succeeded.
- Session mechanics are not modelled. A rollback keeps the previous store, including the id counters. Database-side sequence gaps after a failed flush are not modelled.
- Concurrent requests are not modelled, e.g. two simultaneous signups with one address, which the unique index would refuse at commit.
- Wiring, logging and debug output are left out: `app/services/errors.py`, `app/services/logging_config.py`, `main.py`, and the prints.
- Models.FindUser: the source's `.first()` has no ORDER BY, so which of several matching rows it returns is the database's choice. The model fixes it to the lowest id.
- Security.GetCurrentUser: a textual `sub` names an id only when it is a plain string of decimal digits. The database's integer coercion also accepts a sign and surrounding spaces; the model answers those with 401. A digit text beyond the 32-bit column range also gets 401 in the source, where the query raises; the model looks it up and finds no user only when no stored id is that large.
- FileOps.QueryFileId: a file id text with a sign or surrounding spaces, which PostgreSQL coerces to an integer, is treated as uncoercible. The model answers 500 where the source answers 403, or 404 when no row has that id.

## Findings

| source | as written | input that shows it | evidently intended | confidence | as-written member | corrected member |
|---|---|---|---|---|---|---|
| app/routers/file_operations.py:173-189 | the role check raises a 403 inside the `try` block, and the generic `except Exception` turns it into a 500 | any authenticated `OPS_USER` caller requesting a download token | 403, as the download handler does by re-raising HTTP errors (`except HTTPException: raise`) | not executed; high, since the 403 is coded explicitly and never reaches the client | FileOps.RequestDownloadToken (shown by FileOps.DownloadTokenRoleErrorSwallowed) | FileOps.RequestDownloadTokenIntended (used by Scenarios.CapabilityRedeemedOnlyByHolder) |

=== FILE: auth.dfy ===
/**
 The account lifecycle: signup creates an unverified user and mails a
 verification token, verification consumes the token, login issues a session
 token to a verified user whose password checks out.
 */
module Auth {
  import opened Wrappers
  import opened Http
  import opened Text
  import opened Models
  import opened Schemas
  import opened Security
  import Constants

  predicate EmailTaken(db: Db, email: string) {
    exists k :: k in db.users && db.users[k].email == email
  }

  /**
   The row signup prepares: the next id, the address and role requested, the digest
   of the password, active, unverified, and a verification token that expires 30
   minutes from now.
   */
  function PendingUser(db: Db, req: UserCreate, h: Hasher, salt: string, token: string, now: int): User {
    User(db.nextUserId, req.email, h.hash(req.password, salt), true, false, req.role,
         Some(token), Some(now + Constants.VerificationTokenExpireMinutes * Constants.Minute))
  }

  /**
   The signup handler on a validated body. A taken address is refused with 400. If
   the verification mail cannot be sent, or the row does not fit its columns at
   commit, the insert is rolled back and the answer is 500. Otherwise exactly one
   user is added.
   */
  function CreateUser(db: Db, req: UserCreate, h: Hasher, salt: string, token: string, now: int, mailSent: bool): (s: Step<User>)
    requires Valid(db)
    ensures Valid(s.db)
    ensures s.reply.Err? ==> s.db == db
    ensures EmailTaken(db, req.email) ==> s.reply == Err(BadRequest)
    ensures !EmailTaken(db, req.email) && !mailSent ==> s.reply == Err(ServerError)
    ensures s.reply.Ok? <==> !EmailTaken(db, req.email) && mailSent && UserFits(PendingUser(db, req, h, salt, token, now))
    ensures s.reply.Err? ==> s.reply.status == BadRequest || s.reply.status == ServerError
    ensures s.reply.Ok? ==>
      && s.reply.value.id !in db.users
      && s.db.users == db.users[s.reply.value.id := s.reply.value]
      && s.db.files == db.files
      && s.db.nextFileId == db.nextFileId
      && s.reply.value.email == req.email
      && s.reply.value.role == req.role
      && s.reply.value.hashedPassword == h.hash(req.password, salt)
      && s.reply.value.isActive && !s.reply.value.isVerified
      && s.reply.value.verificationToken == Some(token)
      && s.reply.value.verificationExpiresAt == Some(now + Constants.VerificationTokenExpireMinutes * Constants.Minute)
  {
    if FindUser(db, ByEmail(req.email)).Some? then Step(Err(BadRequest), db)
    else
      var u := PendingUser(db, req, h, salt, token, now);
      if !mailSent then Step(Err(ServerError), db)
      else if !UserFits(u) then Step(Err(ServerError), db)
      else
        var db' := db.(users := db.users[u.id := u], nextUserId := db.nextUserId + 1);
        assert Valid(db') by {
          forall k | k in db'.users ensures UserRowOk(db', k) {
            if k != u.id {
              assert UserRowOk(db, k);
            }
          }
          forall k, k' | k in db'.users && k' in db'.users && db'.users[k].email == db'.users[k'].email
            ensures k == k'
          {
            if k != u.id && k' != u.id {
              assert EmailsUnique(db.users);
            }
          }
          forall k | k in db'.files ensures FileRowOk(db', k) {
            assert FileRowOk(db, k);
          }
        }
        Step(Ok(u), db')
  }

  /** The signup endpoint: schema validation (422 on failure, store unchanged), then the handler. */
  function Signup(db: Db, email: string, password: string, role: string, emailRule: EmailRule,
                  h: Hasher, salt: string, token: string, now: int, mailSent: bool): (s: Step<User>)
    requires Valid(db)
    ensures Valid(s.db)
    ensures ParseUserCreate(email, password, role, emailRule).Failure? ==> s == Step(Err(Unprocessable), db)
    ensures CheckPassword(password).Failure? ==> s == Step(Err(Unprocessable), db)
    ensures emailRule(email).None? ==> s == Step(Err(Unprocessable), db)
    ensures s.reply.Ok? ==> CheckPassword(password).Success? && RoleValue(s.reply.value.role) == role
    ensures s.reply.Ok? ==> emailRule(email) == Some(s.reply.value.email)
    ensures s.reply.Ok? ==> s.db.users.Keys == db.users.Keys + {s.reply.value.id}
    ensures s.reply.Err? ==> s.db == db
  {
    match ParseUserCreate(email, password, role, emailRule)
    case Failure(_) => Step(Err(Unprocessable), db)
    case Success(req) => CreateUser(db, req, h, salt, token, now, mailSent)
  }

  /** The user once its e-mail is verified: verified, with token and expiry cleared. */
  function Verified(u: User): User {
    u.(isVerified := true, verificationToken := None, verificationExpiresAt := None)
  }

  /**
   The e-mail verification handler. A token held by no user is a 400, and so is an
   expired one; expiry is strict, so a token whose expiry is now still verifies.
   Success marks that one user verified and clears its token and expiry. An absent
   expiry cannot be compared with the clock: that raises, giving 500.
   */
  function VerifyEmail(db: Db, token: string, now: int): (s: Step<()>)
    requires Valid(db)
    ensures Valid(s.db)
    ensures s.reply.Err? ==> s.db == db
    ensures (forall k :: k in db.users ==> db.users[k].verificationToken != Some(token)) ==> s.reply == Err(BadRequest)
    ensures s.reply.Ok? <==>
      && FindUser(db, ByVerificationToken(token)).Some?
      && now <= db.users[FindUser(db, ByVerificationToken(token)).value].verificationExpiresAt.value
    ensures s.reply.Ok? ==>
      var k := FindUser(db, ByVerificationToken(token)).value;
      && db.users[k].verificationToken == Some(token)
      && s.db == db.(users := db.users[k := Verified(db.users[k])])
  {
    match FindUser(db, ByVerificationToken(token))
    case None => Step(Err(BadRequest), db)
    case Some(k) =>
      var u := db.users[k];
      if u.verificationExpiresAt.None? then Step(Err(ServerError), db)
      else if u.verificationExpiresAt.value < now then Step(Err(BadRequest), db)
      else
        var db' := db.(users := db.users[k := Verified(u)]);
        assert Valid(db') by {
          forall j | j in db'.users ensures UserRowOk(db', j) {
            assert UserRowOk(db, j);
          }
          forall j | j in db'.files ensures FileRowOk(db', j) {
            assert FileRowOk(db, j);
          }
        }
        Step(Ok(()), db')
  }

  /** In a valid store every verification failure is a 400: the 500 branch is unreachable. */
  lemma VerifyEmailFailsWith400(db: Db, token: string, now: int)
    requires Valid(db)
    ensures VerifyEmail(db, token, now).reply.Err? ==> VerifyEmail(db, token, now).reply.status == BadRequest
  {
    var f := FindUser(db, ByVerificationToken(token));
    if f.Some? {
      assert UserRowOk(db, f.value);
    }
  }

  /**
   Once a token has verified its user, presenting it again fails with 400 when no
   other user holds the same token.
   */
  lemma {:induction false} VerificationTokenSingleUse(db: Db, token: string, now: int, later: int)
    requires Valid(db)
    requires forall j, j' ::
      (j in db.users && j' in db.users && db.users[j].verificationToken == Some(token)
       && db.users[j'].verificationToken == Some(token)) ==> j == j'
    requires VerifyEmail(db, token, now).reply.Ok?
    ensures VerifyEmail(VerifyEmail(db, token, now).db, token, later).reply == Err(BadRequest)
  {
    var db' := VerifyEmail(db, token, now).db;
    var k := FindUser(db, ByVerificationToken(token)).value;
    forall j | j in db'.users ensures db'.users[j].verificationToken != Some(token) {
      if j != k {
        assert db'.users[j] == db.users[j];
      }
    }
  }

  /**
   The login handler. An unknown address and a wrong password give the same 401;
   the password is checked before the verified flag, so an unverified user with a
   wrong password also gets 401, and a verified-flag failure is a 403. The active
   flag is never consulted. Success issues claims naming the user's id as decimal
   text, expiring in 30 minutes.
   */
  function Login(db: Db, req: LoginRequest, h: Hasher, now: int): (r: Reply<Claims>)
    requires Valid(db)
    ensures r.Err? ==> r.status == Unauthorized || r.status == Forbidden
    ensures r == Err(Unauthorized) <==>
      forall k :: k in db.users && db.users[k].email == req.email ==> !h.verify(req.password, db.users[k].hashedPassword)
    ensures r == Err(Forbidden) <==>
      exists k :: k in db.users && db.users[k].email == req.email
        && h.verify(req.password, db.users[k].hashedPassword) && !db.users[k].isVerified
    ensures r.Ok? ==>
      && r.value.Keys == {"sub", "exp"}
      && r.value["exp"] == CInt(now + Constants.AccessTokenExpireMinutes * Constants.Minute)
      && exists k :: k in db.users && db.users[k].email == req.email
           && h.verify(req.password, db.users[k].hashedPassword) && db.users[k].isVerified
           && 0 <= k && r.value["sub"] == CStr(IdToString(k))
  {
    match FindUser(db, ByEmail(req.email))
    case None => Err(Unauthorized)
    case Some(k) =>
      assert UserRowOk(db, k);
      var u := db.users[k];
      if !h.verify(req.password, u.hashedPassword) then Err(Unauthorized)
      else if !u.isVerified then Err(Forbidden)
      else Ok(SessionClaims(k, now))
  }

  /** Login neither reads nor depends on the active flag of the user. */
  lemma LoginIgnoresActiveFlag(db: Db, req: LoginRequest, h: Hasher, now: int, k: int, active: bool)
    requires Valid(db) && k in db.users
    ensures Valid(db.(users := db.users[k := db.users[k].(isActive := active)]))
    ensures Login(db.(users := db.users[k := db.users[k].(isActive := active)]), req, h, now) == Login(db, req, h, now)
  {
    var db' := db.(users := db.users[k := db.users[k].(isActive := active)]);
    forall j | j in db'.users ensures UserRowOk(db', j) {
      assert UserRowOk(db, j);
    }
    forall j | j in db'.files ensures FileRowOk(db', j) {
      assert FileRowOk(db, j);
    }
    var f := FindUser(db, ByEmail(req.email));
    var f' := FindUser(db', ByEmail(req.email));
    if f.Some? {
      FindByEmailUnique(db', req.email, f.value);
    }
  }

  /**
   Login applies no complexity rule: a password the signup rule would refuse still
   logs in a verified user whose digest it matches.
   */
  lemma LoginHasNoPasswordRule(db: Db, req: LoginRequest, h: Hasher, now: int, k: int)
    requires Valid(db) && k in db.users && db.users[k].email == req.email
    requires h.verify(req.password, db.users[k].hashedPassword) && db.users[k].isVerified
    requires CheckPassword(req.password).Failure?
    ensures Login(db, req, h, now).Ok?
  {
    FindByEmailUnique(db, req.email, k);
  }

  /** The login route: body validation (422 on a malformed address), then the handler. */
  function LoginEndpoint(db: Db, email: string, password: string, emailRule: EmailRule, h: Hasher, now: int): (r: Reply<Claims>)
    requires Valid(db)
    ensures emailRule(email).None? <==> r == Err(Unprocessable)
    ensures emailRule(email).Some? ==> r == Login(db, LoginRequest(emailRule(email).value, password), h, now)
  {
    match ParseLoginRequest(email, password, emailRule)
    case Failure(_) => Err(Unprocessable)
    case Success(req) => Login(db, req, h, now)
  }

  /**
   Duplicate detection sees the normalised address: signing up with a spelling that
   normalises to a stored address is refused with 400, whatever case or padding
   the typed text uses.
   */
  lemma SignupRefusesNormalisedDuplicate(db: Db, email: string, password: string, role: string, emailRule: EmailRule,
                                         h: Hasher, salt: string, token: string, now: int, mailSent: bool, k: int)
    requires Valid(db)
    requires CheckPassword(password).Success? && ParseRole(role).Some?
    requires emailRule(email).Some? && k in db.users && db.users[k].email == emailRule(email).value
    ensures Signup(db, email, password, role, emailRule, h, salt, token, now, mailSent) == Step(Err(BadRequest), db)
  {
    assert EmailTaken(db, emailRule(email).value);
  }

  /**
   Login looks the user up by the normalised address: any spelling that normalises
   to a verified user's stored address, with the right password, logs in.
   */
  lemma LoginFindsNormalisedAddress(db: Db, email: string, password: string, emailRule: EmailRule, h: Hasher, now: int, k: int)
    requires Valid(db) && emailRule(email).Some?
    requires k in db.users && db.users[k].email == emailRule(email).value
    requires h.verify(password, db.users[k].hashedPassword) && db.users[k].isVerified
    ensures LoginEndpoint(db, email, password, emailRule, h, now).Ok?
  {
    FindByEmailUnique(db, emailRule(email).value, k);
  }
}

=== FILE: constants.dfy ===
/**
 Constants of the backend, with every duration in seconds. The two token lifetimes
 and the allowed extensions are the values of `app/constants.py`; the others are
 literals of the code that uses them, named where they are defined.
 */
module Constants {

  const Minute := 60

  /** Lifetime of the access token issued at login. */
  const AccessTokenExpireMinutes := 30

  /** Lifetime of the e-mail verification token (the signup handler writes the 30 itself). */
  const VerificationTokenExpireMinutes := 30

  /** Lifetime the token builder (`app/security.py`) falls back to when no, or a zero, lifetime is given. */
  const DefaultTokenMinutes := 15

  /** Expiry, in seconds, of the presigned retrieval URL the download route (`app/routers/file_operations.py`) requests. */
  const PresignedUrlSeconds := 300

  /** The upload extensions accepted, lower-case and with their leading dot, in source order. */
  const AllowedFileExtensions: seq<string> := [".pptx", ".docx", ".xlsx"]

  /** Prefix of every object-storage key (`app/services/s3_service.py`); the key is the prefix followed by the filename. */
  const UploadKeyPrefix := "fast_api/uploads/"
}

=== FILE: file_operations.dfy ===
/**
 The file routes: upload (uploader role), listing (downloader role), issuing a
 download capability token, and redeeming one for a presigned retrieval URL.
 Object storage, the capability-token issuer and validator, and URL presigning are
 collaborators whose outcomes are parameters.
 */
module FileOps {
  import opened Wrappers
  import opened Http
  import opened Text
  import opened Models
  import opened Security
  import opened Constants

  /**
   The upload type check: the lower-cased `splitext` extension must be one of the
   allowed ones, or the request is refused with 400. The accepted extension is
   returned.
   */
  function ValidateFileType(filename: string): (r: Reply<string>)
    ensures r.Ok? <==> Lower(Ext(filename)) in AllowedFileExtensions
    ensures r.Ok? ==> r.value == Lower(Ext(filename))
    ensures r.Err? ==> r.status == BadRequest
  {
    var ext := Lower(Ext(filename));
    if ext in AllowedFileExtensions then Ok(ext) else Err(BadRequest)
  }

  /**
   A name ends, in any letter case, with an allowed extension, and the last path
   component has a non-dot character before it.
   */
  predicate HasAllowedSuffix(f: string) {
    exists e :: e in AllowedFileExtensions && |e| < |f| && Lower(f[|f| - |e|..]) == e
      && exists j :: 0 <= j < |f| - |e| && f[j] != '.' && forall k :: j <= k < |f| - |e| ==> f[k] != '/'
  }

  /** Every allowed extension is a dot and four lower-case letters, so it fits the 10-character type column. */
  lemma AllowedShape(e: string)
    requires e in AllowedFileExtensions
    ensures |e| <= FileTypeWidth
    ensures |e| == 5 && e[0] == '.'
    ensures forall i :: 1 <= i < |e| ==> 'a' <= e[i] <= 'z'
  {
  }

  lemma LowerKeepsNonLetters(c: char)
    ensures LowerChar(c) == '.' <==> c == '.'
    ensures LowerChar(c) == '/' <==> c == '/'
  {
  }

  /** A name the type check accepts has an allowed suffix. */
  lemma AcceptedHasAllowedSuffix(f: string)
    requires ValidateFileType(f).Ok?
    ensures HasAllowedSuffix(f)
  {
    var parts := SplitExt(f);
    var e := Lower(parts.1);
    AllowedShape(e);
    assert |e| == |parts.1|;
    var d := |f| - |e|;
    assert f[d..] == parts.1 && f[..d] == parts.0 by {
      assert parts.0 + parts.1 == f;
    }
    var j :| 0 <= j < |parts.0| && parts.0[j] != '.' && forall k :: j <= k < |parts.0| ==> parts.0[k] != '/';
    assert f[j] == parts.0[j];
    forall k | j <= k < d ensures f[k] != '/' {
      assert f[k] == parts.0[k];
    }
    assert e in AllowedFileExtensions && |e| < |f| && Lower(f[d..]) == e;
  }

  /** The characters of an allowed suffix: a dot, then letters. */
  lemma SuffixCharacters(f: string, e: string)
    requires e in AllowedFileExtensions && |e| < |f| && Lower(f[|f| - |e|..]) == e
    ensures f[|f| - |e|] == '.'
    ensures forall i :: |f| - |e| < i < |f| ==> f[i] != '.' && f[i] != '/'
  {
    AllowedShape(e);
    var d := |f| - |e|;
    forall i | d <= i < |f|
      ensures (f[i] == '.' <==> i == d) && f[i] != '/'
    {
      assert Lower(f[d..])[i - d] == LowerChar(f[i]);
      LowerKeepsNonLetters(f[i]);
    }
  }

  /** A name with an allowed suffix passes the type check. */
  lemma AllowedSuffixAccepted(f: string)
    requires HasAllowedSuffix(f)
    ensures ValidateFileType(f).Ok?
  {
    var e, j :| e in AllowedFileExtensions && |e| < |f| && Lower(f[|f| - |e|..]) == e
      && 0 <= j < |f| - |e| && f[j] != '.' && forall k :: j <= k < |f| - |e| ==> f[k] != '/';
    var d := |f| - |e|;
    SuffixCharacters(f, e);
    RFindLast(f, '.', d);
    var sep := RFind(f, '/');
    assert sep < j;
    assert NonDotIn(f, sep + 1, d);
    assert Ext(f) == f[d..];
  }

  /** The type check accepts exactly the names with an allowed suffix, in both directions. */
  lemma ValidateFileTypeAcceptsAllowedSuffix(f: string)
    ensures ValidateFileType(f).Ok? <==> HasAllowedSuffix(f)
  {
    if ValidateFileType(f).Ok? {
      AcceptedHasAllowedSuffix(f);
    }
    if HasAllowedSuffix(f) {
      AllowedSuffixAccepted(f);
    }
  }

  /** Concrete names: the extension test ignores case and looks only at the last suffix. */
  lemma ValidateFileTypeExamples()
    ensures ValidateFileType("Report.XLSX") == Ok(".xlsx")
    ensures ValidateFileType("a.xlsx.exe").Err?
    ensures ValidateFileType(".xlsx").Err?
    ensures ValidateFileType("notes").Err?
  {
    var a := "Report.XLSX";
    RFindLast(a, '.', 6);
    RFindAbsent(a, '/');
    assert NonDotIn(a, 0, 6) by { assert a[0] != '.'; }
    assert Ext(a) == ".XLSX";
    assert Lower(".XLSX") == ".xlsx";
    var b := "a.xlsx.exe";
    RFindLast(b, '.', 6);
    RFindAbsent(b, '/');
    assert NonDotIn(b, 0, 6) by { assert b[0] != '.'; }
    assert Ext(b) == ".exe";
    assert Lower(".exe") == ".exe";
    var c := ".xlsx";
    RFindLast(c, '.', 0);
    RFindAbsent(c, '/');
    assert Ext(c) == "";
    var n := "notes";
    RFindAbsent(n, '.');
    assert Ext(n) == "";
    assert Lower("") == "";
  }

  /** The object-storage key of an upload: a fixed prefix and the client's filename. */
  function S3Key(filename: string): string {
    UploadKeyPrefix + filename
  }

  /** The database accepts the row: it fits its columns and its primary key is free. */
  predicate Insertable(db: Db, rec: FileRec) {
    FileFits(rec) && rec.id !in db.files
  }

  /** The metadata row an upload inserts. */
  function UploadRecord(db: Db, caller: User, filename: string): FileRec {
    FileRec(db.nextFileId, filename, S3Key(filename), caller.id, Lower(Ext(filename)))
  }

  /**
   The upload handler for an authenticated caller. A caller without the uploader
   role gets 403 and a name with a refused extension gets 400, both before storage
   is touched. Then the object is stored and the row inserted; a storage failure, a
   failed commit, or a row the database refuses (a column overflow, a taken primary
   key) rolls back and gives 500.
   */
  function Upload(db: Db, caller: User, filename: string, stored: bool, committed: bool): (s: Step<FileRec>)
    ensures s.reply.Err? ==> s.db == db
    ensures caller.role != OpsUser ==> s.reply == Err(Forbidden)
    ensures caller.role == OpsUser && ValidateFileType(filename).Err? ==> s.reply == Err(BadRequest)
    ensures caller.role == OpsUser && ValidateFileType(filename).Ok? && !(stored && committed) ==> s.reply == Err(ServerError)
    ensures s.reply.Ok? <==>
      caller.role == OpsUser && ValidateFileType(filename).Ok? && stored && committed && Insertable(db, UploadRecord(db, caller, filename))
    ensures s.reply.Ok? ==>
      && s.reply.value.id !in db.files
      && s.reply.value.filename == filename
      && s.reply.value.uploadedBy == caller.id
      && s.reply.value.fileType in AllowedFileExtensions
      && s.reply.value.fileType == Lower(Ext(filename))
      && s.reply.value.s3Key == UploadKeyPrefix + filename
      && s.db.files == db.files[s.reply.value.id := s.reply.value]
      && s.db.users == db.users
      && s.db.nextUserId == db.nextUserId
  {
    if caller.role != OpsUser then Step(Err(Forbidden), db)
    else match ValidateFileType(filename)
      case Err(code) => Step(Err(code), db)
      case Ok(_) =>
        if !stored then Step(Err(ServerError), db)
        else
          var rec := UploadRecord(db, caller, filename);
          if !committed || !Insertable(db, rec) then Step(Err(ServerError), db)
          else Step(Ok(rec), db.(files := db.files[rec.id := rec], nextFileId := db.nextFileId + 1))
  }

  /** An upload by a stored user keeps the store valid. */
  lemma UploadPreservesValid(db: Db, caller: User, filename: string, stored: bool, committed: bool)
    requires Valid(db) && caller.id in db.users && db.users[caller.id] == caller
    ensures Valid(Upload(db, caller, filename, stored, committed).db)
  {
    var s := Upload(db, caller, filename, stored, committed);
    if s.reply.Ok? {
      var rec := s.reply.value;
      forall k | k in s.db.users ensures UserRowOk(s.db, k) {
        assert UserRowOk(db, k);
      }
      forall k | k in s.db.files ensures FileRowOk(s.db, k) {
        if k != rec.id {
          assert FileRowOk(db, k);
        }
      }
    }
  }

  /** A refused upload does not depend on storage or the database: neither is reached. */
  lemma UploadRejectionPrecedesStorage(db: Db, caller: User, filename: string, stored: bool, committed: bool, stored': bool, committed': bool)
    requires caller.role != OpsUser || ValidateFileType(filename).Err?
    ensures Upload(db, caller, filename, stored, committed) == Upload(db, caller, filename, stored', committed')
    ensures Upload(db, caller, filename, stored, committed).reply.Err?
  {
  }

  /**
   A name longer than 238 characters passes every check but makes a storage key
   wider than its 255-character column, so the insert fails after the object was
   stored.
   */
  lemma LongFilenameUploadFails(db: Db, caller: User, filename: string)
    requires |filename| > TextWidth - |UploadKeyPrefix|
    ensures Upload(db, caller, filename, true, true).reply.Err?
  {
  }

  /** Two uploads of the same name share one storage key: the later object replaces the earlier. */
  lemma SameNameSameKey(db: Db, db': Db, caller: User, caller': User, filename: string)
    requires Upload(db, caller, filename, true, true).reply.Ok?
    requires Upload(db', caller', filename, true, true).reply.Ok?
    ensures Upload(db, caller, filename, true, true).reply.value.s3Key == Upload(db', caller', filename, true, true).reply.value.s3Key
  {
  }

  /** The listing handler: downloader role only (403 otherwise); every stored file, whoever uploaded it. */
  function ListFiles(db: Db, caller: User): (r: Reply<set<FileRec>>)
    ensures r.Err? <==> caller.role != ClientUser
    ensures r.Err? ==> r.status == Forbidden
    ensures r.Ok? ==> forall k :: k in db.files ==> db.files[k] in r.value
    ensures r.Ok? ==> forall f :: f in r.value ==> exists k :: k in db.files && db.files[k] == f
  {
    if caller.role != ClientUser then Err(Forbidden)
    else Ok(set k | k in db.files :: db.files[k])
  }

  /**
   The body of the token-issuing handler's `try` block: the role check raises an
   HTTP 403, then the issuer is asked for a token binding the file id to the
   caller's id; the issuer failing raises some other exception.
   */
  function IssueAttempt(caller: User, fileId: int, issue: (int, int) -> Option<string>): Result<string, Raised> {
    if caller.role != ClientUser then Failure(Http(Forbidden))
    else match issue(fileId, caller.id)
      case None => Failure(Unhandled)
      case Some(token) => Success(token)
  }

  /**
   The token-issuing handler as written: its generic handler catches every
   exception, the role check's 403 included, and answers 500. The file id is not
   looked up.
   */
  function RequestDownloadToken(caller: User, fileId: int, issue: (int, int) -> Option<string>): (r: Reply<string>)
    ensures r.Err? ==> r.status == ServerError
    ensures r.Ok? <==> caller.role == ClientUser && issue(fileId, caller.id).Some?
    ensures r.Ok? ==> r.value == issue(fileId, caller.id).value
  {
    match IssueAttempt(caller, fileId, issue)
    case Success(token) => Ok(token)
    case Failure(_) => Err(ServerError)
  }

  /**
   The token-issuing handler with HTTP errors re-raised, as the download handler
   does: a caller without the downloader role gets 403.
   */
  function RequestDownloadTokenIntended(caller: User, fileId: int, issue: (int, int) -> Option<string>): (r: Reply<string>)
    ensures caller.role != ClientUser ==> r == Err(Forbidden)
    ensures caller.role == ClientUser && issue(fileId, caller.id).None? ==> r == Err(ServerError)
    ensures r.Ok? <==> caller.role == ClientUser && issue(fileId, caller.id).Some?
    ensures r.Ok? ==> r.value == issue(fileId, caller.id).value
    ensures r.Ok? ==> RequestDownloadToken(caller, fileId, issue) == r
  {
    match IssueAttempt(caller, fileId, issue)
    case Success(token) => Ok(token)
    case Failure(e) => Err(StatusOf(e))
  }

  /** The as-written handler answers an uploader-role caller with 500 where 403 is meant. */
  lemma DownloadTokenRoleErrorSwallowed(caller: User, fileId: int, issue: (int, int) -> Option<string>)
    requires caller.role == OpsUser
    ensures RequestDownloadToken(caller, fileId, issue) == Err(ServerError)
    ensures RequestDownloadTokenIntended(caller, fileId, issue) == Err(Forbidden)
  {
  }

  /**
   What a valid capability token's payload carries: the file id and the user id, as
   the JSON values the validator decodes (an integer, a text or null).
   */
  datatype Grant = Grant(fileId: ClaimValue, userId: ClaimValue)

  /** The outcome of the query `FileModel.id == v`. */
  datatype FileQuery = ById(k: int) | NoRow | QueryFails

  /**
   How the database compares the 32-bit integer id column with a payload value: an
   integer is compared as is; a text is coerced to `integer`, which succeeds for a
   text of decimal digits within the column's range and raises for a text beyond it
   or not a number; null compares as `IS NULL` and selects no row.
   */
  function QueryFileId(v: ClaimValue): (q: FileQuery)
    ensures q.ById? <==> v.CInt? || (v.CStr? && ParseId(v.s).Some? && ParseId(v.s).value <= IntegerMax)
    ensures q.ById? && v.CInt? ==> q.k == v.i
    ensures q.ById? && v.CStr? ==> q.k == ParseId(v.s).value
    ensures q == NoRow <==> v.CNull?
  {
    match v
    case CInt(i) => ById(i)
    case CNull => NoRow
    case CStr(s) =>
      if ParseId(s).Some? && ParseId(s).value <= IntegerMax then ById(ParseId(s).value) else QueryFails
  }

  /** The Python comparison `n == v` of an integer with a payload value: only an equal integer is equal. */
  predicate SameId(n: int, v: ClaimValue) {
    v == CInt(n)
  }

  /**
   The download handler. In order: the capability token is validated (an HTTP
   error raised by the validator passes through, any other exception is a 500); a
   file id the query cannot coerce is a 500; a file id selecting no stored file is
   a 404; a found file whose id differs from the payload's file id, or a payload
   user id that differs from the caller's, is a 403 (a textual id is never equal to
   an integer one); only then is a URL presigned for 300 seconds. The caller's role
   is not checked.
   */
  function DownloadFile(db: Db, caller: User, token: string, validate: string -> Result<Grant, Raised>,
                        presign: (string, int) -> Option<string>): (r: Reply<string>)
    ensures validate(token).Failure? ==> r == Err(StatusOf(validate(token).error))
    ensures validate(token).Success? && QueryFileId(validate(token).value.fileId) == QueryFails ==>
      r == Err(ServerError)
    ensures validate(token).Success? && validate(token).value.fileId == CNull ==> r == Err(NotFound)
    ensures (validate(token).Success? && QueryFileId(validate(token).value.fileId).ById?
              && QueryFileId(validate(token).value.fileId).k !in db.files) ==> r == Err(NotFound)
    ensures (validate(token).Success? && QueryFileId(validate(token).value.fileId).ById?
              && QueryFileId(validate(token).value.fileId).k in db.files
              && !SameId(caller.id, validate(token).value.userId)) ==> r == Err(Forbidden)
    ensures (validate(token).Success? && validate(token).value.fileId.CStr?
              && QueryFileId(validate(token).value.fileId).ById?
              && QueryFileId(validate(token).value.fileId).k in db.files) ==> r == Err(Forbidden)
    ensures r.Ok? <==>
      && validate(token).Success?
      && validate(token).value.fileId.CInt?
      && validate(token).value.fileId.i in db.files
      && db.files[validate(token).value.fileId.i].id == validate(token).value.fileId.i
      && validate(token).value.userId == CInt(caller.id)
      && presign(db.files[validate(token).value.fileId.i].s3Key, PresignedUrlSeconds).Some?
    ensures r.Ok? ==> r.value == presign(db.files[validate(token).value.fileId.i].s3Key, PresignedUrlSeconds).value
  {
    match validate(token)
    case Failure(e) => Err(StatusOf(e))
    case Success(grant) =>
      match QueryFileId(grant.fileId)
      case QueryFails => Err(ServerError)
      case NoRow => Err(NotFound)
      case ById(k) =>
        if k !in db.files then Err(NotFound)
        else
          var file := db.files[k];
          if !SameId(file.id, grant.fileId) || !SameId(caller.id, grant.userId) then Err(Forbidden)
          else match presign(file.s3Key, PresignedUrlSeconds)
            case None => Err(ServerError)
            case Some(url) => Ok(url)
  }

  /**
   In a valid store the row found by an integer id always carries that id, so for an
   integer file id ownership is the caller check alone.
   */
  lemma DownloadOwnershipIsCallerCheck(db: Db, caller: User, token: string, validate: string -> Result<Grant, Raised>,
                                       presign: (string, int) -> Option<string>, k: int)
    requires Valid(db)
    requires validate(token).Success? && validate(token).value.fileId == CInt(k) && k in db.files
    ensures DownloadFile(db, caller, token, validate, presign).Ok? <==>
      validate(token).value.userId == CInt(caller.id)
      && presign(db.files[k].s3Key, PresignedUrlSeconds).Some?
  {
    assert FileRowOk(db, k);
  }

  /**
   A payload naming the file by its decimal text finds the stored row, yet is
   refused with 403: the row's integer id never equals the text. A text beyond the
   column's range makes the query raise instead, giving 500.
   */
  lemma TextualFileIdRefused(db: Db, caller: User, token: string, validate: string -> Result<Grant, Raised>,
                             presign: (string, int) -> Option<string>, k: nat)
    requires Valid(db) && k in db.files
    requires validate(token) == Success(Grant(CStr(IdToString(k)), CInt(caller.id)))
    ensures k <= IntegerMax ==> QueryFileId(CStr(IdToString(k))) == ById(k)
    ensures k <= IntegerMax ==> DownloadFile(db, caller, token, validate, presign) == Err(Forbidden)
    ensures k > IntegerMax ==> DownloadFile(db, caller, token, validate, presign) == Err(ServerError)
  {
    ParseIdToString(k);
  }

  /** The download decision does not depend on the caller's role. */
  lemma DownloadIgnoresRole(db: Db, caller: User, role: Role, token: string, validate: string -> Result<Grant, Raised>,
                            presign: (string, int) -> Option<string>)
    ensures DownloadFile(db, caller.(role := role), token, validate, presign) == DownloadFile(db, caller, token, validate, presign)
  {
  }

  /** The upload route: the bearer token is resolved first (401, store unchanged), then the handler. */
  function UploadEndpoint(db: Db, decode: string -> Option<Claims>, bearer: Option<string>,
                          filename: string, stored: bool, committed: bool): (s: Step<FileRec>)
    requires Valid(db)
    ensures Valid(s.db)
    ensures GetCurrentUser(db, decode, bearer).Err? ==> s == Step(Err(Unauthorized), db)
    ensures s.reply.Ok? ==>
      && GetCurrentUser(db, decode, bearer).Ok?
      && s.reply.value.uploadedBy == GetCurrentUser(db, decode, bearer).value.id
      && db.users[s.reply.value.uploadedBy].role == OpsUser
  {
    match GetCurrentUser(db, decode, bearer)
    case Err(code) => Step(Err(code), db)
    case Ok(caller) =>
      UploadPreservesValid(db, caller, filename, stored, committed);
      Upload(db, caller, filename, stored, committed)
  }

  /** The listing route. */
  function ListEndpoint(db: Db, decode: string -> Option<Claims>, bearer: Option<string>): (r: Reply<set<FileRec>>)
    ensures GetCurrentUser(db, decode, bearer).Err? ==> r == Err(Unauthorized)
    ensures r.Ok? ==> forall k :: k in db.files ==> db.files[k] in r.value
    ensures r.Ok? ==> GetCurrentUser(db, decode, bearer).Ok? && GetCurrentUser(db, decode, bearer).value.role == ClientUser
  {
    match GetCurrentUser(db, decode, bearer)
    case Err(code) => Err(code)
    case Ok(caller) => ListFiles(db, caller)
  }

  /** The token-issuing route. */
  function DownloadTokenEndpoint(db: Db, decode: string -> Option<Claims>, bearer: Option<string>,
                                 fileId: int, issue: (int, int) -> Option<string>): (r: Reply<string>)
    ensures GetCurrentUser(db, decode, bearer).Err? ==> r == Err(Unauthorized)
    ensures GetCurrentUser(db, decode, bearer).Ok? && r.Err? ==> r.status == ServerError
    ensures r.Ok? ==>
      && GetCurrentUser(db, decode, bearer).Ok?
      && issue(fileId, GetCurrentUser(db, decode, bearer).value.id).Some?
      && r.value == issue(fileId, GetCurrentUser(db, decode, bearer).value.id).value
  {
    match GetCurrentUser(db, decode, bearer)
    case Err(code) => Err(code)
    case Ok(caller) => RequestDownloadToken(caller, fileId, issue)
  }

  /** The download route. */
  function DownloadEndpoint(db: Db, decode: string -> Option<Claims>, bearer: Option<string>, token: string,
                            validate: string -> Result<Grant, Raised>, presign: (string, int) -> Option<string>): (r: Reply<string>)
    ensures GetCurrentUser(db, decode, bearer).Err? ==> r == Err(Unauthorized)
    ensures r.Ok? ==>
      && GetCurrentUser(db, decode, bearer).Ok?
      && validate(token).Success?
      && validate(token).value.userId == CInt(GetCurrentUser(db, decode, bearer).value.id)
  {
    match GetCurrentUser(db, decode, bearer)
    case Err(code) => Err(code)
    case Ok(caller) => DownloadFile(db, caller, token, validate, presign)
  }
}

=== FILE: http.dfy ===
/** What a request handler answers: a payload, or the status code of the HTTP error it raised. */
module Http {

  const BadRequest := 400
  const Unauthorized := 401
  const Forbidden := 403
  const NotFound := 404
  /** The status the web framework gives a request body that fails schema validation. */
  const Unprocessable := 422
  const ServerError := 500

  datatype Reply<+T> = Ok(value: T) | Err(status: int)

  /** An exception escaping a collaborator: an HTTP error with its status, or anything else. */
  datatype Raised = Http(code: int) | Unhandled

  /** The status the client sees when the exception reaches the framework: anything but an HTTP error is a 500. */
  function StatusOf(e: Raised): int {
    match e
    case Http(code) => code
    case Unhandled => ServerError
  }
}

=== FILE: models.dfy ===
/**
 The persisted records — users and file metadata — and the store holding them.
 A store is a pair of maps keyed by primary key plus the next value of each id
 sequence; rolling a transaction back means keeping the store as it was.
 */
module Models {
  import opened Wrappers
  import opened Http
  import Constants

  /** A user holds exactly one of the two roles: uploader or downloader. */
  datatype Role = OpsUser | ClientUser

  /** The text value of a role in requests and in the database enum. */
  function RoleValue(r: Role): string {
    match r
    case OpsUser => "ops_user"
    case ClientUser => "client_user"
  }

  /** The role a request's text names, if any. */
  function ParseRole(s: string): (r: Option<Role>)
    ensures r.Some? ==> RoleValue(r.value) == s
    ensures r.None? ==> forall role: Role :: RoleValue(role) != s
  {
    if s == "ops_user" then Some(OpsUser)
    else if s == "client_user" then Some(ClientUser)
    else None
  }

  lemma RoleValueRoundTrip(r: Role)
    ensures ParseRole(RoleValue(r)) == Some(r)
  {
  }

  datatype User = User(
    id: int,
    email: string,
    hashedPassword: string,
    isActive: bool,
    isVerified: bool,
    role: Role,
    verificationToken: Option<string>,
    verificationExpiresAt: Option<int>)

  datatype FileRec = FileRec(
    id: int,
    filename: string,
    s3Key: string,
    uploadedBy: int,
    fileType: string)

  datatype Db = Db(
    users: map<int, User>,
    nextUserId: int,
    files: map<int, FileRec>,
    nextFileId: int)

  /** A handler's reply together with the store it leaves behind. */
  datatype Step<+T> = Step(reply: Reply<T>, db: Db)

  /** Width of the `String(255)` columns. */
  const TextWidth := 255
  /** Width of the `file_type` column, `String(10)`. */
  const FileTypeWidth := 10
  /** The largest value of an `Integer` column: PostgreSQL's 32-bit signed `integer`. */
  const IntegerMax := 0x7FFF_FFFF

  /** The user row fits its columns; the database refuses to commit one that does not. */
  predicate UserFits(u: User) {
    && |u.email| <= TextWidth
    && |u.hashedPassword| <= TextWidth
    && (u.verificationToken.Some? ==> |u.verificationToken.value| <= TextWidth)
  }

  /** The file row fits its columns. */
  predicate FileFits(f: FileRec) {
    && |f.filename| <= TextWidth
    && |f.s3Key| <= TextWidth
    && |f.fileType| <= FileTypeWidth
  }

  /** A user row on its own: keyed by its id, fits, and holds a verification token iff it holds its expiry. */
  predicate UserRowOk(db: Db, k: int)
    requires k in db.users
  {
    && 1 <= k < db.nextUserId
    && db.users[k].id == k
    && UserFits(db.users[k])
    && (db.users[k].verificationToken.Some? <==> db.users[k].verificationExpiresAt.Some?)
  }

  /** A file row on its own, and the user it records as its uploader. */
  predicate FileRowOk(db: Db, k: int)
    requires k in db.files
  {
    && 1 <= k < db.nextFileId
    && db.files[k].id == k
    && FileFits(db.files[k])
    && db.files[k].fileType in Constants.AllowedFileExtensions
    && db.files[k].uploadedBy in db.users
    && db.users[db.files[k].uploadedBy].role == OpsUser
  }

  predicate EmailsUnique(users: map<int, User>) {
    forall k, k' :: k in users && k' in users && users[k].email == users[k'].email ==> k == k'
  }

  /**
   The invariant of every store the handlers produce: ids come from their
   sequences, e-mail addresses are unique, rows fit their columns, and every file
   was uploaded, with an allowed extension, by a stored uploader-role user.
   */
  predicate Valid(db: Db) {
    && 1 <= db.nextUserId
    && 1 <= db.nextFileId
    && (forall k :: k in db.users ==> UserRowOk(db, k))
    && EmailsUnique(db.users)
    && (forall k :: k in db.files ==> FileRowOk(db, k))
  }

  /** The empty store of a fresh database. */
  function EmptyDb(): (db: Db)
    ensures Valid(db)
    ensures db.users == map[] && db.files == map[]
  {
    Db(map[], 1, map[], 1)
  }

  /** The column a user query filters on, with the value it must equal. */
  datatype UserKey = ByEmail(email: string) | ByVerificationToken(token: string)

  /** SQL equality on the column: a NULL token matches no value. */
  predicate Matches(u: User, key: UserKey) {
    match key
    case ByEmail(e) => u.email == e
    case ByVerificationToken(t) => u.verificationToken == Some(t)
  }

  /** The lowest id in `[lo, hi)` whose user matches `key`. */
  function FirstUser(users: map<int, User>, key: UserKey, lo: int, hi: int): (r: Option<int>)
    ensures r.Some? ==> lo <= r.value < hi && r.value in users && Matches(users[r.value], key)
    ensures r.Some? ==> forall k :: lo <= k < r.value && k in users ==> !Matches(users[k], key)
    ensures r.None? ==> forall k :: lo <= k < hi && k in users ==> !Matches(users[k], key)
    decreases hi - lo
  {
    if hi <= lo then None
    else if lo in users && Matches(users[lo], key) then Some(lo)
    else FirstUser(users, key, lo + 1, hi)
  }

  /**
   `query(User).filter(column == value).first()`. No ORDER BY is given, so the row
   returned among several matches is the database's choice; the model takes the
   lowest id. In a valid store the search covers every user.
   */
  function FindUser(db: Db, key: UserKey): (r: Option<int>)
    requires Valid(db)
    ensures r.Some? ==> r.value in db.users && Matches(db.users[r.value], key)
    ensures r.Some? ==> forall k :: k in db.users && k < r.value ==> !Matches(db.users[k], key)
    ensures r.None? <==> forall k :: k in db.users ==> !Matches(db.users[k], key)
  {
    var r := FirstUser(db.users, key, 1, db.nextUserId);
    assert r.None? ==> forall k :: k in db.users ==> !Matches(db.users[k], key) by {
      if r.None? {
        forall k | k in db.users ensures !Matches(db.users[k], key) {
          assert UserRowOk(db, k);
        }
      }
    }
    r
  }

  /** E-mail lookup in a valid store finds the one user holding that address. */
  lemma FindByEmailUnique(db: Db, email: string, k: int)
    requires Valid(db)
    requires k in db.users && db.users[k].email == email
    ensures FindUser(db, ByEmail(email)) == Some(k)
  {
  }
}

=== FILE: scenarios.dfy ===
/**
 End-to-end runs across handlers: an account from signup to an authenticated
 request, an upload, and a capability token from issue to redemption.
 */
module Scenarios {
  import opened Wrappers
  import opened Http
  import opened Text
  import opened Models
  import opened Schemas
  import opened Security
  import opened Auth
  import opened FileOps
  import Constants

  /**
   Signing up with a well-formed, fresh address and an acceptable password,
   verifying within 30 minutes, and logging in with the same address text and
   password yields session claims that resolve to the new, now verified, account,
   stored under the normalised address. The hasher's verify-after-hash property is
   the only assumption about hashing.
   */
  lemma {:induction false} SignupVerifyLoginAuthenticates(
    db: Db, email: string, password: string, role: string, emailRule: EmailRule, h: Hasher, salt: string,
    vtoken: string, t0: int, t1: int, t2: int, decode: string -> Option<Claims>, bearer: string)
    requires Valid(db) && Sound(h)
    requires emailRule(email).Some? && CheckPassword(password).Success? && ParseRole(role).Some?
    requires !EmailTaken(db, emailRule(email).value)
    requires |emailRule(email).value| <= TextWidth && |h.hash(password, salt)| <= TextWidth && |vtoken| <= TextWidth
    requires forall k :: k in db.users ==> db.users[k].verificationToken != Some(vtoken)
    requires t0 <= t1 <= t0 + Constants.VerificationTokenExpireMinutes * Constants.Minute
    ensures
      var s1 := Signup(db, email, password, role, emailRule, h, salt, vtoken, t0, true);
      && s1.reply.Ok?
      && var s2 := VerifyEmail(s1.db, vtoken, t1);
      && s2.reply.Ok?
      && s2.db.users[s1.reply.value.id].isVerified
      && var l := LoginEndpoint(s2.db, email, password, emailRule, h, t2);
      && l.Ok?
      && (decode(bearer) == Some(l.value) ==>
            && GetCurrentUser(s2.db, decode, Some(bearer)) == Ok(s2.db.users[s1.reply.value.id])
            && Some(s2.db.users[s1.reply.value.id].email) == emailRule(email)
            && RoleValue(s2.db.users[s1.reply.value.id].role) == role)
  {
    var addr := emailRule(email).value;
    var req := UserCreate(addr, password, ParseRole(role).value);
    assert ParseUserCreate(email, password, role, emailRule) == Success(req);
    var s1 := Signup(db, email, password, role, emailRule, h, salt, vtoken, t0, true);
    var u := PendingUser(db, req, h, salt, vtoken, t0);
    assert s1.reply == Ok(u);
    var id := u.id;
    assert FindUser(s1.db, ByVerificationToken(vtoken)) == Some(id) by {
      assert Matches(s1.db.users[id], ByVerificationToken(vtoken));
    }
    var s2 := VerifyEmail(s1.db, vtoken, t1);
    assert s2.reply.Ok?;
    assert s2.db.users[id] == Verified(u);
    FindByEmailUnique(s2.db, addr, id);
    assert h.verify(password, u.hashedPassword);
    var l := LoginEndpoint(s2.db, email, password, emailRule, h, t2);
    assert UserRowOk(s2.db, id);
    assert l == Ok(SessionClaims(id, t2));
    if decode(bearer) == Some(l.value) {
      SessionRoundTrip(s2.db, decode, bearer, id, t2);
    }
  }

  /**
   A stored uploader uploading "report.xlsx" adds a row typed ".xlsx"; the same
   request from a downloader-role user is refused with 403.
   */
  lemma UploaderStoresSpreadsheet(db: Db, caller: User)
    requires Valid(db) && caller.role == OpsUser
    ensures
      var s := Upload(db, caller, "report.xlsx", true, true);
      && s.reply.Ok?
      && s.reply.value.fileType == ".xlsx"
      && s.reply.value.s3Key == "fast_api/uploads/report.xlsx"
    ensures Upload(db, caller.(role := ClientUser), "report.xlsx", true, true) == Step(Err(Forbidden), db)
  {
    var f := "report.xlsx";
    assert S3Key(f) == "fast_api/uploads/report.xlsx";
    RFindLast(f, '.', 6);
    RFindAbsent(f, '/');
    assert NonDotIn(f, 0, 6) by { assert f[0] != '.'; }
    assert Ext(f) == ".xlsx";
    assert Lower(".xlsx") == ".xlsx";
    forall k | k in db.files ensures k < db.nextFileId {
      assert FileRowOk(db, k);
    }
  }

  /** The issuer and validator agree: a token issued for (file, user) validates to that grant. */
  ghost predicate CapabilityRoundTrip(issue: (int, int) -> Option<string>, validate: string -> Result<Grant, Raised>) {
    forall f, u :: issue(f, u).Some? ==> validate(issue(f, u).value) == Success(Grant(CInt(f), CInt(u)))
  }

  /**
   A downloader who obtains a capability token for a stored file redeems it for
   the presigned URL of that file; any other user presenting the same token gets
   403.
   */
  lemma CapabilityRedeemedOnlyByHolder(
    db: Db, client: User, other: User, fileId: int,
    issue: (int, int) -> Option<string>, validate: string -> Result<Grant, Raised>, presign: (string, int) -> Option<string>)
    requires Valid(db) && CapabilityRoundTrip(issue, validate)
    requires client.role == ClientUser && other.id != client.id
    requires fileId in db.files && issue(fileId, client.id).Some?
    requires presign(db.files[fileId].s3Key, Constants.PresignedUrlSeconds).Some?
    ensures
      var t := RequestDownloadTokenIntended(client, fileId, issue);
      && t.Ok?
      && DownloadFile(db, client, t.value, validate, presign) == Ok(presign(db.files[fileId].s3Key, Constants.PresignedUrlSeconds).value)
      && DownloadFile(db, other, t.value, validate, presign) == Err(Forbidden)
  {
    assert FileRowOk(db, fileId);
  }

  /**
   Issuing does not look the file up: a token for an id with no stored file is
   issued, and redeeming it gives 404.
   */
  lemma CapabilityForMissingFile(
    db: Db, client: User, fileId: int,
    issue: (int, int) -> Option<string>, validate: string -> Result<Grant, Raised>, presign: (string, int) -> Option<string>)
    requires CapabilityRoundTrip(issue, validate)
    requires client.role == ClientUser && fileId !in db.files && issue(fileId, client.id).Some?
    ensures
      var t := RequestDownloadTokenIntended(client, fileId, issue);
      && t.Ok?
      && DownloadFile(db, client, t.value, validate, presign) == Err(NotFound)
  {
  }
}

=== FILE: schemas.dfy ===
/**
 Request bodies and the validation the schema layer applies to them before any
 handler runs. A body that fails validation is answered with status 422.
 */
module Schemas {
  import opened Wrappers
  import opened Text
  import opened Models

  const MinPasswordLength := 8

  /** Why a signup password was refused; the length rule is the field type's own constraint. */
  datatype PasswordError = TooShort | MissingDigit | MissingUppercase

  predicate HasDigit(s: string) {
    exists i :: 0 <= i < |s| && IsDigit(s[i])
  }

  predicate HasUpper(s: string) {
    exists i :: 0 <= i < |s| && IsUpper(s[i])
  }

  /**
   The signup password rule: at least eight characters (checked first, by the field
   type), then a digit, then an upper-case letter. An accepted password comes back
   unchanged; nothing else — lower case, symbols — is required.
   */
  function CheckPassword(v: string): (r: Result<string, PasswordError>)
    ensures r.Success? <==> |v| >= MinPasswordLength && HasDigit(v) && HasUpper(v)
    ensures r.Success? ==> r.value == v
    ensures |v| < MinPasswordLength ==> r == Failure(TooShort)
    ensures |v| >= MinPasswordLength && !HasDigit(v) ==> r == Failure(MissingDigit)
    ensures |v| >= MinPasswordLength && HasDigit(v) && !HasUpper(v) ==> r == Failure(MissingUppercase)
  {
    if |v| < MinPasswordLength then Failure(TooShort)
    else if !HasDigit(v) then Failure(MissingDigit)
    else if !HasUpper(v) then Failure(MissingUppercase)
    else Success(v)
  }

  /**
   The validator's scans as it runs them, one character at a time: after the length
   constraint, a short-circuiting search for a digit, then one for an upper-case
   letter. It agrees with the rule on every password.
   */
  method ScanPassword(v: string) returns (r: Result<string, PasswordError>)
    ensures r == CheckPassword(v)
  {
    if |v| < MinPasswordLength {
      return Failure(TooShort);
    }
    var i := 0;
    var found := false;
    while i < |v| && !found
      invariant 0 <= i <= |v|
      invariant found ==> HasDigit(v)
      invariant !found ==> forall j :: 0 <= j < i ==> !IsDigit(v[j])
    {
      found := IsDigit(v[i]);
      i := i + 1;
    }
    if !found {
      return Failure(MissingDigit);
    }
    i := 0;
    found := false;
    while i < |v| && !found
      invariant 0 <= i <= |v|
      invariant found ==> HasUpper(v)
      invariant !found ==> forall j :: 0 <= j < i ==> !IsUpper(v[j])
    {
      found := IsUpper(v[i]);
      i := i + 1;
    }
    if !found {
      return Failure(MissingUppercase);
    }
    return Success(v);
  }

  /** Concrete passwords: upper case and a digit suffice; the digit error is reported first. */
  lemma PasswordExamples()
    ensures CheckPassword("ABCDEFG1") == Success("ABCDEFG1")
    ensures CheckPassword("abcdefgh") == Failure(MissingDigit)
    ensures CheckPassword("abcdefg1") == Failure(MissingUppercase)
    ensures CheckPassword("Passw0rd") == Success("Passw0rd")
    ensures CheckPassword("Ab1") == Failure(TooShort)
  {
    assert IsUpper("ABCDEFG1"[0]) && IsDigit("ABCDEFG1"[7]);
    assert IsUpper("Passw0rd"[0]) && IsDigit("Passw0rd"[5]);
    assert IsDigit("abcdefg1"[7]);
    assert !HasDigit("abcdefgh") by {
      forall i | 0 <= i < 8 ensures !IsDigit("abcdefgh"[i]) {}
    }
    assert !HasUpper("abcdefg1") by {
      forall i | 0 <= i < 8 ensures !IsUpper("abcdefg1"[i]) {}
    }
  }

  /** A signup body whose fields all validated. */
  datatype UserCreate = UserCreate(email: string, password: string, role: Role)

  /**
   The address field type: `None` for text that is not an e-mail address, and
   otherwise the address in the form the field type hands on (surrounding spaces
   and a display name removed, the domain lower-cased). The e-mail validation
   library is not part of this model, so the rule is a parameter.
   */
  type EmailRule = string -> Option<string>

  /** A field error of a request body, in the order the fields are declared. */
  datatype FieldError = BadEmail | BadPassword(why: PasswordError) | BadRole

  /**
   Validation of a signup body: every field is checked and every failure reported.
   The validated body carries the address as the field type normalised it.
   */
  function ParseUserCreate(email: string, password: string, role: string, emailRule: EmailRule): (r: Result<UserCreate, seq<FieldError>>)
    ensures r.Success? <==> emailRule(email).Some? && CheckPassword(password).Success? && ParseRole(role).Some?
    ensures r.Success? ==> r.value.email == emailRule(email).value && r.value.password == password
    ensures r.Success? ==> RoleValue(r.value.role) == role
    ensures r.Failure? ==> r.error != []
    ensures r.Failure? ==>
      && (emailRule(email).None? <==> BadEmail in r.error)
      && (CheckPassword(password).Failure? ==> BadPassword(CheckPassword(password).error) in r.error)
      && (CheckPassword(password).Success? ==> forall e :: e in r.error ==> !e.BadPassword?)
      && (ParseRole(role).None? <==> BadRole in r.error)
  {
    var emailErrors := if emailRule(email).None? then [BadEmail] else [];
    var passwordErrors := if CheckPassword(password).Failure? then [BadPassword(CheckPassword(password).error)] else [];
    var roleErrors := if ParseRole(role).None? then [BadRole] else [];
    if emailErrors + passwordErrors + roleErrors == [] then
      Success(UserCreate(emailRule(email).value, CheckPassword(password).value, ParseRole(role).value))
    else
      Failure(emailErrors + passwordErrors + roleErrors)
  }

  /** A login body: any password text is accepted, with no complexity rule. */
  datatype LoginRequest = LoginRequest(email: string, password: string)

  /**
   Validation of a login body: only the address is checked, by the same field type
   as at signup, so both look users up by the normalised address.
   */
  function ParseLoginRequest(email: string, password: string, emailRule: EmailRule): (r: Result<LoginRequest, seq<FieldError>>)
    ensures r.Success? <==> emailRule(email).Some?
    ensures r.Success? ==> r.value.email == emailRule(email).value && r.value.password == password
    ensures r.Failure? ==> r.error == [BadEmail]
  {
    match emailRule(email)
    case None => Failure([BadEmail])
    case Some(address) => Success(LoginRequest(address, password))
  }
}

=== FILE: security.dfy ===
/**
 Session tokens and credentials. A session token is modelled by the claims it
 carries; signing and decoding belong to the JWT library and appear only as a
 decoder, from token text to claims, that the caller supplies. Password hashing is
 an opaque one-way function with a random salt and a separate verifier.
 */
module Security {
  import opened Wrappers
  import opened Http
  import opened Text
  import opened Models
  import Constants

  /** A claim value as it comes out of the token's JSON payload. */
  datatype ClaimValue = CStr(s: string) | CInt(i: int) | CNull

  type Claims = map<string, ClaimValue>

  /** The password primitive: `hash(password, salt)` and `verify(password, digest)`. */
  datatype Hasher = Hasher(hash: (string, string) -> string, verify: (string, string) -> bool)

  /** The one property of the primitive the backend relies on: a password verifies against its own digest. */
  ghost predicate Sound(h: Hasher) {
    forall p, salt :: h.verify(p, h.hash(p, salt))
  }

  /**
   The claims of a new access token: the caller's claims, unchanged except that `exp`
   is set, overwriting any `exp` the caller passed. The lifetime is the given one
   when it is present and non-zero; an absent or zero lifetime (both false in a
   boolean test) gives the 15-minute default. A negative lifetime is honoured.
   */
  function CreateAccessToken(data: Claims, expiresDelta: Option<int>, now: int): (c: Claims)
    ensures c.Keys == data.Keys + {"exp"}
    ensures forall k :: k in data && k != "exp" ==> c[k] == data[k]
    ensures expiresDelta.Some? && expiresDelta.value != 0 ==> c["exp"] == CInt(now + expiresDelta.value)
    ensures expiresDelta.None? || expiresDelta == Some(0) ==>
      c["exp"] == CInt(now + Constants.DefaultTokenMinutes * Constants.Minute)
  {
    var lifetime :=
      if expiresDelta.Some? && expiresDelta.value != 0 then expiresDelta.value
      else Constants.DefaultTokenMinutes * Constants.Minute;
    data["exp" := CInt(now + lifetime)]
  }

  /** Decoding a token: any failure of the library (bad signature, expired, malformed) is a 401. */
  function DecodeToken(decode: string -> Option<Claims>, token: string): (r: Reply<Claims>)
    ensures r.Err? ==> r.status == Unauthorized
    ensures r.Ok? <==> decode(token).Some?
    ensures r.Ok? ==> r.value == decode(token).value
  {
    match decode(token)
    case None => Err(Unauthorized)
    case Some(claims) => Ok(claims)
  }

  /**
   The user id a token's `sub` claim names. A missing or null claim names none. The
   JWT library refuses a token whose subject is not a string, so an integer claim
   names none either. A text claim is compared with the integer id column, so it
   names an id only when it is a string of digits (any other text makes the query
   fail).
   */
  function SubjectId(claims: Claims): (id: Option<int>)
    ensures id.Some? <==> "sub" in claims && claims["sub"].CStr? && ParseId(claims["sub"].s).Some?
    ensures id.Some? ==> id.value == ParseId(claims["sub"].s).value
  {
    if "sub" !in claims then None
    else match claims["sub"]
      case CNull => None
      case CInt(_) => None
      case CStr(s) => if ParseId(s).Some? then Some(ParseId(s).value) else None
  }

  /**
   Resolving the bearer token of a request to the stored user it names. A missing
   header, a token the library refuses, a token without a subject and a subject
   naming no stored user are all answered with 401; nothing else is consulted —
   neither the active flag nor the verified flag.
   */
  function GetCurrentUser(db: Db, decode: string -> Option<Claims>, bearer: Option<string>): (r: Reply<User>)
    ensures r.Err? ==> r.status == Unauthorized
    ensures r.Ok? <==>
      && bearer.Some?
      && decode(bearer.value).Some?
      && SubjectId(decode(bearer.value).value).Some?
      && SubjectId(decode(bearer.value).value).value in db.users
    ensures r.Ok? ==> r.value == db.users[SubjectId(decode(bearer.value).value).value]
    ensures r.Ok? && Valid(db) ==> r.value.id == SubjectId(decode(bearer.value).value).value
  {
    if bearer.None? then Err(Unauthorized)
    else match DecodeToken(decode, bearer.value)
      case Err(_) => Err(Unauthorized)
      case Ok(claims) =>
        match SubjectId(claims)
        case None => Err(Unauthorized)
        case Some(id) => if id in db.users then Ok(db.users[id]) else Err(Unauthorized)
  }

  /** The claims the login handler puts in a session token for user `id`. */
  function SessionClaims(id: nat, now: int): Claims {
    CreateAccessToken(map["sub" := CStr(IdToString(id))], Some(Constants.AccessTokenExpireMinutes * Constants.Minute), now)
  }

  /**
   A session token whose claims are the ones login issued for a stored user
   resolves back to exactly that user: the decimal `sub` text parses to the same id.
   */
  lemma {:induction false} SessionRoundTrip(db: Db, decode: string -> Option<Claims>, token: string, id: nat, now: int)
    requires Valid(db) && id in db.users
    requires decode(token) == Some(SessionClaims(id, now))
    ensures GetCurrentUser(db, decode, Some(token)) == Ok(db.users[id])
  {
    var claims := SessionClaims(id, now);
    assert claims["sub"] == CStr(IdToString(id));
    ParseIdToString(id);
    assert SubjectId(claims) == Some(id);
  }

  /** A token carrying no textual subject never authenticates, whatever the store holds. */
  lemma NoSubjectNoUser(db: Db, decode: string -> Option<Claims>, token: string)
    requires decode(token).Some? && ("sub" !in decode(token).value || !decode(token).value["sub"].CStr?)
    ensures GetCurrentUser(db, decode, Some(token)) == Err(Unauthorized)
  {
  }
}

=== FILE: text.dfy ===
/**
 Character classes and string operations the backend relies on: ASCII digit and
 upper-case tests, lower-casing, the POSIX `splitext` rule, and the decimal text of
 an integer id as it travels in the `sub` claim.
 */
module Text {
  import opened Wrappers

  predicate IsDigit(c: char) {
    '0' <= c <= '9'
  }

  predicate IsUpper(c: char) {
    'A' <= c <= 'Z'
  }

  function LowerChar(c: char): char {
    if IsUpper(c) then (c as int + 32) as char else c
  }

  /** Lower-cases every upper-case ASCII letter and keeps every other character. */
  function Lower(s: string): string {
    seq(|s|, i requires 0 <= i < |s| => LowerChar(s[i]))
  }

  /** Index of the last occurrence of `c` in `s`, or -1 (Python's `str.rfind`). */
  function RFind(s: string, c: char): (i: int)
    ensures -1 <= i < |s|
    ensures 0 <= i ==> s[i] == c && forall j :: i < j < |s| ==> s[j] != c
    ensures i == -1 ==> forall j :: 0 <= j < |s| ==> s[j] != c
    decreases |s|
  {
    if |s| == 0 then -1
    else if s[|s| - 1] == c then |s| - 1
    else RFind(s[..|s| - 1], c)
  }

  /** `RFind` finds the given occurrence when no later one exists. */
  lemma RFindLast(s: string, c: char, i: int)
    requires 0 <= i < |s| && s[i] == c
    requires forall j :: i < j < |s| ==> s[j] != c
    ensures RFind(s, c) == i
  {
  }

  /** `RFind` of a character the string lacks is -1. */
  lemma RFindAbsent(s: string, c: char)
    requires forall j :: 0 <= j < |s| ==> s[j] != c
    ensures RFind(s, c) == -1
  {
  }

  /** Some character of `p[lo..hi]` is not a dot. */
  predicate NonDotIn(p: string, lo: int, hi: int)
    requires 0 <= lo <= hi <= |p|
  {
    exists i :: lo <= i < hi && p[i] != '.'
  }

  /**
   The last path component of `p` holds a dot with a non-dot character somewhere
   before it in that component: the condition for a non-empty extension.
   */
  predicate DottedName(p: string) {
    exists i, j :: 0 <= j < i < |p| && p[i] == '.' && p[j] != '.' && NoSlashFrom(p, j)
  }

  /** No path separator occurs in `p` from index `j` on. */
  predicate NoSlashFrom(p: string, j: int)
    requires 0 <= j <= |p|
  {
    forall k :: j <= k < |p| ==> p[k] != '/'
  }

  /** `DottedName` is the test `splitext` performs with the last separator and the last dot. */
  lemma DottedNameSplits(p: string)
    ensures DottedName(p) <==>
      RFind(p, '.') > RFind(p, '/') && NonDotIn(p, RFind(p, '/') + 1, RFind(p, '.'))
  {
    if DottedName(p) {
      var i, j :| 0 <= j < i < |p| && p[i] == '.' && p[j] != '.' && NoSlashFrom(p, j);
      SplitOfDottedName(p, i, j);
    }
    var sep := RFind(p, '/');
    var dot := RFind(p, '.');
    if dot > sep && NonDotIn(p, sep + 1, dot) {
      var j :| sep + 1 <= j < dot && p[j] != '.';
      DottedNameOfSplit(p, j);
    }
  }

  lemma SplitOfDottedName(p: string, i: int, j: int)
    requires 0 <= j < i < |p| && p[i] == '.' && p[j] != '.' && NoSlashFrom(p, j)
    ensures RFind(p, '.') > RFind(p, '/') && NonDotIn(p, RFind(p, '/') + 1, RFind(p, '.'))
  {
    var sep := RFind(p, '/');
    var dot := RFind(p, '.');
    assert i <= dot;
    assert sep < j by {
      if 0 <= sep {
        assert p[sep] == '/';
      }
    }
    assert NonDotIn(p, sep + 1, dot) by {
      assert sep + 1 <= j < dot && p[j] != '.';
    }
  }

  lemma DottedNameOfSplit(p: string, j: int)
    requires RFind(p, '/') < j < RFind(p, '.') && p[j] != '.'
    ensures DottedName(p)
  {
    var dot := RFind(p, '.');
    forall k | j <= k < |p| ensures p[k] != '/' {
    }
    assert NoSlashFrom(p, j);
    assert 0 <= j < dot < |p| && p[dot] == '.';
  }

  /**
   POSIX `os.path.splitext`: the extension starts at the last dot of the last path
   component, provided that component has a non-dot character before that dot, and
   is empty otherwise (no dot, a dot only in a directory name, or a name such as
   `.xlsx` or `..` made of leading dots).
   */
  function SplitExt(p: string): (parts: (string, string))
    ensures parts.0 + parts.1 == p
    ensures parts.1 != [] <==> DottedName(p)
    ensures parts.1 != [] ==> parts.1[0] == '.'
    ensures forall k :: 1 <= k < |parts.1| ==> parts.1[k] != '.' && parts.1[k] != '/'
    ensures parts.1 != [] ==>
      exists j :: 0 <= j < |parts.0| && parts.0[j] != '.' &&
        forall k :: j <= k < |parts.0| ==> parts.0[k] != '/'
  {
    DottedNameSplits(p);
    var sep := RFind(p, '/');
    var dot := RFind(p, '.');
    if dot > sep && NonDotIn(p, sep + 1, dot) then (p[..dot], p[dot..]) else (p, [])
  }

  /** The extension of `p`, with its dot, as `os.path.splitext(p)[1]` computes it. */
  function Ext(p: string): string {
    SplitExt(p).1
  }

  predicate AllDigits(s: string) {
    forall i :: 0 <= i < |s| ==> IsDigit(s[i])
  }

  function DigitChar(d: int): char
    requires 0 <= d < 10
  {
    ('0' as int + d) as char
  }

  function DigitValue(c: char): int
    requires IsDigit(c)
  {
    c as int - '0' as int
  }

  /** Python's `str(n)` for a non-negative integer: its decimal digits, no leading zero. */
  function IdToString(n: nat): (s: string)
    ensures 1 <= |s| && AllDigits(s)
    ensures s[0] == '0' ==> n == 0
    decreases n
  {
    if n < 10 then [DigitChar(n)] else IdToString(n / 10) + [DigitChar(n % 10)]
  }

  /** The number a string of decimal digits denotes. */
  function DecimalValue(s: string): nat
    requires AllDigits(s)
    decreases |s|
  {
    if s == [] then 0 else DecimalValue(s[..|s| - 1]) * 10 + DigitValue(s[|s| - 1])
  }

  /**
   The integer a textual id denotes when it is a non-empty string of decimal digits
   (leading zeros allowed). The database's coercion also accepts a sign and
   surrounding spaces; those texts are not read as ids here.
   */
  function ParseId(s: string): (r: Option<nat>)
    ensures r.Some? <==> 1 <= |s| && AllDigits(s)
  {
    if 1 <= |s| && AllDigits(s) then Some(DecimalValue(s)) else None
  }

  /** The decimal text of an id parses back to the same id. */
  lemma {:induction false} ParseIdToString(n: nat)
    ensures ParseId(IdToString(n)) == Some(n)
  {
    DecimalOfIdToString(n);
  }

  lemma {:induction false} DecimalOfIdToString(n: nat)
    ensures DecimalValue(IdToString(n)) == n
    decreases n
  {
    var s := IdToString(n);
    if n < 10 {
      assert s[..|s| - 1] == [];
    } else {
      var prefix := IdToString(n / 10);
      assert s == prefix + [DigitChar(n % 10)];
      assert s[..|s| - 1] == prefix;
      DecimalOfIdToString(n / 10);
    }
  }
}

=== FILE: wrappers.dfy ===
/** Failure-compatible wrappers shared by the whole model. */
module Wrappers {

  /** A value that may be absent: Python's `None`, or a nullable column. */
  datatype Option<+T> = None | Some(value: T)

  /** A value or the error that replaced it (a raised exception). */
  datatype Result<+T, +E> = Success(value: T) | Failure(error: E)
}
